=== FILE: README.md ===
# CLFContainerViewController — a Dafny model of the child-switching state machine

CLFContainerViewController is an Objective-C base class for custom UIKit container view controllers. It
manages an ordered array of child view controllers, shows one of them as the current child, and runs
interruptible, multi-stage transitions between them. Two subclasses build on it. The stack container has
push/pop with four push/pop direction settings. The tabbed container lets a delegate refuse a switch.

This project models that behaviour as an immutable state machine, as the public headers describe it. Only
the headers are modelled, so the model works at the level of their contracts:

- Children and completion blocks are opaque identities (`ChildId`, `Token`).
- A transition is a run of animation stages, each of which eventually signals completion.
- Every operation is a pure function. It returns either the new state or the exception the class raises.
  A completion block that gets invoked shows up as a `Report(token, finished)`.

Modules:

- `Wrappers`: `Option` and `Result`.
- `Sequences`: positional insert/remove, lookup and reversal on the child array, with lemmas about membership.
- `Container` (`CLFContainerViewController.h`): the state (`children`, `current`, the single in-flight
  `Transition` holding from/to, the caller's completion and the stages left, the two policy flags, and the
  subclass's simplified-switch animation `preset`). It holds add/insert/remove, the full and simplified
  switch, switch-by-index, and the events `StageCompleted`, `ContainerWillDisappear` and `ContainerDidDisappear`.
- `ContainerRuns`: runs of events and operations, the invariant along any run, and the completed and
  interrupted transition scenarios.
- `StackContainer` (`CLFStackContainerViewController.h`): one-shot root setup; push, pop, pop-to and pop-to-root
  in their simplified forms, and the full forms of push and pop-to that the header declares; the direction
  enum and its presets; disabled direct add/insert/remove; and a pop-one-at-a-time reference for pop-to. The
  header has no full forms of pop and pop-to-root. `PopWith` and `PopToRootWith` are this model's own
  generalisations: they take the explicit transition, and the simplified forms are built on them.
- `TabbedContainer` (`CLFTabbedContainerViewController.h`): delegate-gated selection by child and by index,
  with the approved/refused hooks and the did-select notification.

The central invariant, `Container.Valid`, has five parts:

- the children are distinct;
- the current child is either absent or managed;
- the preset's arrays agree in length;
- while a transition runs, its target *is* the current child, so "current" means "on screen or being
  transitioned to";
- a running transition has at least one stage left.

The stack invariant, `StackContainer.StackValid`, adds three facts. The array is empty exactly until the
root is set. The current child is always the top. The four direction presets are well formed.

## Model

| member | source | states |
|---|---|---|
| Container.SwitchTo | CLFContainerViewController/CLFContainerViewController.h:185-206 | A target that is not managed raises NotAMember. Mismatched animation arrays raise when animating. Only these two cases fail, and a failure changes nothing. On success the current child is the target at once and the children, flags and preset are unchanged. A transition is in progress exactly when the switch is animated with at least one stage; it carries the caller's completion. A superseded transition's completion is reported first, with finished NO, and an immediate switch then reports the caller's with YES. An interrupting transition starts from the interrupted one's `to`, otherwise from the old current child. These promises are gathered in `SwitchedTo`, which every operation that switches also ensures. The pre-animation setup runs exactly when one is given and the switch is not the reverse-interrupt case with the flag off. This holds for animated and immediate switches alike. The invariant is kept. |
| Container.SwitchToSimplified | CLFContainerViewController/CLFContainerViewController.h:156-175 | The simplified switch fails exactly for a non-member, or for an animated switch with a malformed preset. On success it keeps every promise of the full switch (`SwitchedTo`) with the preset as the animation: only the current child and the in-flight transition change, a superseded completion is reported with NO, an immediate switch reports the caller's completion with YES, and a staged one starts from the interrupted transition's `to` or else the old current child. It animates exactly when asked to and the preset has stages, and it runs the preset's setup under the same skip rule. With the base class's preset it never starts a transition. |
| Container.SwitchToIndex | CLFContainerViewController/CLFContainerViewController.h:177-181 | Switching to index i equals the simplified switch to `children[i]`. An index past the end raises. |
| Container.Add | CLFContainerViewController/CLFContainerViewController.h:57-65 | Adding appends the child and changes nothing else: the current child, the in-flight transition, both flags and the preset are kept. Adding a managed child raises. A valid container stays valid. |
| Container.Insert | CLFContainerViewController/CLFContainerViewController.h:108-113 | Inserting puts the child at the index. Away from the current index nothing else changes. At the current index the inserted child becomes current through the simplified switch on the grown array, with no completion of its own (`SwitchedTo`): a superseded transition's completion is reported with NO, the flags and preset are kept, and a new transition starts from the interrupted one's `to` or else the old current child. It animates exactly when the animate-at-current-index flag is set and the subclass's transition (the preset) has stages. The preset's pre-animation setup runs exactly for that switch, when the preset has one and the reverse-interrupt rule does not skip it; no other insert runs it. A duplicate child or an index past the end raises. A valid container stays valid. |
| Container.Remove | CLFContainerViewController/CLFContainerViewController.h:148-152 | Removing an unmanaged child raises NotFound. Removing another child changes nothing else. Removing the current child switches to its successor through the simplified switch (`SwitchedTo`): the child now at the removed index, else the new last child. Only the superseded transition's completion is reported, with finished NO, and the flags and preset are kept. It animates exactly when the animate-at-current-index flag is set and the preset has stages. The preset's pre-animation setup runs for that switch under the reverse-interrupt rule, and no other removal runs it. Removing the last child leaves no current child, supersedes a running transition and changes nothing else. The removed child is never current afterwards, and the invariant is kept. |
| Container.SwitchToSuccessor | CLFContainerViewController/CLFContainerViewController.h:148-152 | After the current child is removed while others remain, the switch lands on the successor: the child now at the removed index, else the new last one. It is the simplified switch on the shrunk array with no completion of its own (`SwitchedTo`): only the superseded completion is reported, with finished NO, the flags and preset are kept, and a new transition starts from the interrupted one's `to` or else the removed child. It animates exactly when the flag is set and the preset has stages. The preset's pre-animation setup runs exactly when the preset has one and the reverse-interrupt rule does not skip it. For distinct remaining children and a well-formed preset it succeeds and keeps the invariant. |
| Container.Handle | CLFContainerExample/CLFContainerExample/MainViewController.h:42-49 | No event changes anything but the in-flight transition: the children, the current child, both flags and the preset are kept. Will-disappear leaves a running transition alone. Did-disappear completes it at once with finished YES. A stage completion counts down the stages, and the last one clears from/to and reports finished YES. The invariant is kept. |
| Container.TransitionTo | CLFContainerViewController/CLFContainerViewController.h:99-106 | `transitionToViewController` is set exactly while a transition is in progress, and under the invariant it equals the current child. |
| Container.TransitionFrom | CLFContainerViewController/CLFContainerViewController.h:99-106 | `transitionFromViewController` is nil whenever no transition is in progress. |
| ContainerRuns.StagesComplete | CLFContainerViewController/CLFContainerViewController.h:187-195 | A transition with n stages left stays in progress through fewer than n stage completions. The n-th completion ends it with only its own completion reported, as finished. |
| ContainerRuns.UninterruptedSwitchCompletes | CLFContainerViewController/CLFContainerViewController.h:190-195 | An animated switch from idle runs from the old current child to the target. After all its stages the container is idle on the target, from/to are nil, and the caller alone is told it finished. |
| ContainerRuns.InterruptedSwitchResolves | CLFContainerViewController/CLFContainerViewController.h:193-195 | Interrupting A→B with a switch to C tells the first caller it did not finish and makes the in-flight pair B→C. After C's stages the container rests on C, and the second caller is told it finished. |
| ContainerRuns.ReverseInterruptSkipsSetup | CLFContainerViewController/CLFContainerViewController.h:115-123 | A reverse interrupt runs the pre-animation setup exactly when the flag is YES. Every other interruption runs it. |
| ContainerRuns.EventsKeepCurrent | CLFContainerViewController/CLFContainerViewController.h:67-71 | No run of events moves the current child or changes the array, and every such run keeps the invariant. |
| ContainerRuns.RunPreservesValid | CLFContainerViewController/CLFContainerViewController.h:57-71 | Along any run of add/insert/remove/switch/event operations, the current child is absent or managed and the invariant holds. |
| ContainerRuns.InitialIsValid | CLFContainerViewController/CLFContainerViewController.h:108-123 | A fresh container is valid and idle, and since the flag defaults to YES it never skips a pre-animation setup. |
| StackContainer.PopMotion | CLFContainerViewController/CLFStackContainerViewController.h:48-53 | Each direction setting pops in the reverse of the direction it pushes. |
| StackContainer.DirectionPushing | CLFContainerViewController/CLFStackContainerViewController.h:48-53 | Each push direction belongs to exactly one setting. |
| StackContainer.PopAnimation | CLFContainerViewController/CLFStackContainerViewController.h:67-71 | Pops animate with the preset of the reverse of the push direction. |
| StackContainer.Top | CLFContainerViewController/CLFStackContainerViewController.h:64-65 | In a valid stack the top is the current child. |
| StackContainer.NewStack | CLFContainerViewController/CLFStackContainerViewController.h:118-123 | A fresh stack container is not set up, has no root and satisfies the stack invariant. Its condition that the direction presets be well formed is the model's condition on the arrays a subclass provides; the header states none. |
| StackContainer.SetupWithRoot | CLFContainerViewController/CLFStackContainerViewController.h:118-123 | Setting the root works only once and raises afterwards. The array becomes exactly [root], and the root is the root, the top and the current child, with no transition running. The direction, the presets, both flags and the engine's preset are kept. |
| StackContainer.EditDirectly | CLFContainerViewController/CLFStackContainerViewController.h:40-42 | Direct add, insert and remove are disabled: each raises, so the array changes only through setup, push and pop. |
| StackContainer.PushWith | CLFContainerViewController/CLFStackContainerViewController.h:156-164 | Push raises before setup, for a child already on the stack, and for an animated push whose arrays disagree; in every other case it succeeds. The child is appended and becomes the top, current child and switch target, and the root is unchanged. The push is the full switch on the grown array (`SwitchedTo`): a superseded completion is reported with NO, an immediate push reports the caller's completion with YES, a staged one carries it and starts from the interrupted transition's `to` or else the old top, and nothing but the engine changes. It animates exactly when asked with stages, runs the setup under the reverse-interrupt rule, and keeps the stack invariant. |
| StackContainer.Push | CLFContainerViewController/CLFStackContainerViewController.h:141-142 | The simplified push is the full push with the push-direction preset. In a set-up stack a new child always ends on top. |
| StackContainer.CutAbove | CLFContainerViewController/CLFStackContainerViewController.h:146-147 | Cutting above t leaves the prefix ending at t, with the root kept. The popped children are those above t, top first, so the remaining prefix followed by the reversed popped list gives back the stack. Nothing is popped exactly when t is the top. |
| StackContainer.PopToWith | CLFContainerViewController/CLFStackContainerViewController.h:166-174 | Pop-to raises before setup, for a non-member, and for an animated call whose arrays disagree when something would be popped; in every other case it succeeds. It leaves t on top with the root unchanged and returns the children above t, top first. When something is popped it is the full switch to t on the cut array (`SwitchedTo`): a superseded completion is reported with NO, an immediate pop reports the caller's with YES, a staged one carries it and starts from the interrupted transition's `to` or else the old top, and nothing but the engine changes. Popping to the current top changes nothing and reports the caller's completion as finished. It keeps the stack invariant. |
| StackContainer.PopTo | CLFContainerViewController/CLFStackContainerViewController.h:146-147 | The simplified pop-to is the full pop-to with the pop-direction preset. For a member of a set-up stack it always leaves that member on top. |
| StackContainer.PopWith | CLFContainerViewController/CLFStackContainerViewController.h:144 | Pop is pop-to the child below the top. It returns the old top and drops only it. With only the root left it raises. |
| StackContainer.Pop | CLFContainerViewController/CLFStackContainerViewController.h:132-135 | The simplified pop is made through the simplified pop-to. |
| StackContainer.PopToRootWith | CLFContainerViewController/CLFStackContainerViewController.h:149 | Pop-to-root is pop-to the root. It leaves only the root, and the popped children, reversed, are all the others. |
| StackContainer.PopToRoot | CLFContainerViewController/CLFStackContainerViewController.h:132-135 | The simplified pop-to-root is the simplified pop-to on the root. |
| StackContainer.PopOneByOne | CLFContainerViewController/CLFStackContainerViewController.h:146-147 | Taking the top off one child at a time until t is the top leaves the prefix ending at t and returns the children above t, top first. These are exactly the `remaining` and `popped` that `CutAbove` states, and so the stack and popped list of pop-to. |
| StackContainer.PushThenPop | CLFContainerViewController/CLFStackContainerViewController.h:141-144 | A push followed by a pop restores the children and the top, and the pop returns the pushed child. |
| StackContainer.StackStep | CLFContainerViewController/CLFStackContainerViewController.h:40-42 | Every stack operation keeps the stack invariant. Direct add/insert/remove leave the stack unchanged, and events never change the array. |
| StackContainer.StackRunPreservesValid | CLFContainerViewController/CLFStackContainerViewController.h:120-123 | Along any run, the current child is the top and the root never changes once set. |
| TabbedContainer.Select | CLFContainerViewController/CLFTabbedContainerViewController.h:79-92 | The delegate is asked first. A refusal runs the refused hook and leaves everything unchanged, with no did-select, whether or not the child is managed. An approval of a child that is not managed raises NotAMember from the switch. An approval, which includes a missing delegate or an unimplemented should-select, runs the approved hook, switches to the child and notifies did-select. The switch is the simplified one with the tab transition and no completion (`SwitchedTo`): a superseded completion is reported with NO, the engine's flags and preset are kept, and a staged switch starts from the interrupted transition's `to` or else the old current child. Did-select is sent exactly for approved selections. The tab transition's pre-animation block runs only for an approved switch, when one is given and the reverse-interrupt rule does not skip it. The switch animates exactly when `animateTransitions` is set and the tab transition has stages. |
| TabbedContainer.SelectAtIndex | CLFContainerViewController/CLFTabbedContainerViewController.h:74-76 | Selecting index i is selecting `children[i]` through the same gate. An index past the end raises. A refusal changes nothing and sends no did-select. |

## Modelling choices

The headers are silent on the following points, so the model fixes them as follows.

- Adding or inserting a child that is already managed raises `AlreadyManaged`. This keeps the children distinct.
- Removing a child that is not managed raises `NotFound`.
- When the current child is removed, the child now at its index becomes current. If it was last, the new
  last child does.
- Inserting at the current index and removing the current child both switch through the simplified switch,
  so they use the subclass's transition (the preset) and animate only when the flag is set and the preset
  has stages.
- The pre-animation setup also runs for an unanimated switch, or one with no stages, whenever one is given:
  the header says it is always run for every transition, and only the reverse-interrupt flag can skip it.
- An unanimated switch, or one with no stages, resolves immediately. If a transition was running, it is
  superseded with finished NO.
- Mismatched animation/duration/option array lengths raise `MalformedTransition`, but only for an animated switch.
- A switch to the child that is already current is an ordinary switch.
- The subclass's simplified switch animation is modelled as `State.preset`. The base class's simplified API
  switches without animation, so its preset has no stages.
- The stack container also refuses `insertViewController:atIndex:`. Its header disables only add and remove,
  but it also says the array is managed by push and pop alone.
- Pop-to returns the popped children top first. For a stack [root, X, Y, Z], pop-to-root returns [Z, Y, X].
- Popping to the child that is already the top pops nothing and starts no transition. It reports the
  completion as finished.
- Popping with only the root left raises `EmptyStack`.
- Pushing a child already on the stack raises.
- The stack's setup places the root without animation.
- The delegate's answer to should-select is an input (`Option<bool>`). `None` means there is no delegate, or
  the delegate does not implement the method. Did-select is emitted together with the approval.
- There is a single pre-animation setup block per transition, as in the headers' signatures, not one per stage.

## Left out

- Appearance forwarding to children (viewWillAppear and the other appearance calls, CLFContainerViewController.h:33-35): the headers promise that it happens but give no call order.
- Animation block bodies, durations, options and curves: only the array lengths and whether a setup block is given are kept.
- `childRestingFrame` and `containerView` (CLFContainerViewController.h:87-94): geometry.
- `borrowNavItemContentsFromChildren` and `animateNavItemBarButtonItemChanges`: navigation-item observation is UIKit chrome.
- `rotationInterruptionCleanupBlock` (CLFContainerViewController.h:125-142): resets frames and alpha after a rotation, so it is visual only. The container disappearing mid-transition is modelled as the `ContainerDidDisappear` force-complete event.
- Rotation notifications and the UIKit view and view-controller hierarchy.
- When completion blocks run (synchronously or later): each step lists the completions it invokes, in order.
- The stack's per-direction block properties (CLFStackContainerViewController.h:77-114): they become a `Presets` record of animations.
- `MainViewController` and `WobbleContainerViewController`: demo UI. The former documents the disappear behaviour that `Container.Handle` models.
- The rule that completion blocks must not read `transitionFromViewController`/`transitionToViewController`: this is caller guidance, not state. What those properties hold after completion or interruption is stated by `Container.Handle` and `Container.SwitchTo`.

=== FILE: container.dfy ===
/**
 * The base container: the ordered array of managed children, the current child, the single in-flight
 * transition and the two policy flags, with the registry operations (add, insert, remove), the switch
 * operation in its full and simplified forms, and the events that drive an in-flight transition to its end.
 *
 * Children and completion blocks are opaque identities. A transition is an ordered run of animation stages
 * that each signal completion; geometry, durations and curves are not modelled.
 */
module Container {
  import opened Wrappers
  import opened Sequences

  /** The identity of a child view controller. */
  type ChildId = nat

  /** The identity of a caller's completion block. */
  type Token = nat

  /**
   * The animation arguments of the full switch call: whether a pre-animation setup block is given, and the
   * lengths of the animation-block, duration and option arrays.
   */
  datatype Animation = Animation(preSetup: bool, blocks: nat, durations: nat, options: nat)

  /** The three arrays describe the same stages. */
  predicate WellFormed(a: Animation) {
    a.durations == a.blocks && a.options == a.blocks
  }

  /** No setup block and no stages: a switch made with it is immediate. */
  const Unanimated := Animation(false, 0, 0, 0)

  /** The transition in progress: its two children, the caller's completion block, and the stages still to finish. */
  datatype Transition = Transition(from: Option<ChildId>, to: ChildId, completion: Option<Token>, stagesLeft: nat)

  /**
   * The observable state of a container.
   * `preset` is the animation that the simplified switch API uses when asked to animate; the base
   * class's own simplified API switches without animation, so its default preset has no stages.
   */
  datatype State = State(
    children: seq<ChildId>,
    current: Option<ChildId>,
    inFlight: Option<Transition>,
    animateAtCurrentIndex: bool,
    preAnimateOnReverseInterrupt: bool,
    preset: Animation)

  /** A completion block invoked with its `finished` argument. */
  datatype Report = Report(token: Token, finished: bool)

  /** The state after a step, the completion blocks it invoked in order, and whether it ran a pre-animation setup block. */
  datatype Outcome = Outcome(state: State, reports: seq<Report>, ranPreSetup: bool)

  /** The exceptions the container raises; each leaves the state as it was. */
  datatype Error = NotAMember | NotFound | AlreadyManaged | IndexOutOfRange | MalformedTransition

  /** Events that arrive from outside a switch call. */
  datatype Event =
    | StageCompleted          // the running animation stage signalled completion
    | ContainerWillDisappear  // the container is going off screen; transitions keep running
    | ContainerDidDisappear   // the container went off screen; a running transition is wrapped up at once

  /** A fresh container: nothing managed, both policy flags at their default YES. */
  const Initial := State([], None, None, true, true, Unanimated)

  /**
   * The container's invariant: children are distinct, the current child is absent or managed, the preset
   * is well formed, and while a transition runs its target is the current child and it has a stage left.
   */
  predicate Valid(s: State) {
    && NoDuplicates(s.children)
    && (s.current.Some? ==> s.current.value in s.children)
    && WellFormed(s.preset)
    && (s.inFlight.Some? ==> s.current == Some(s.inFlight.value.to) && s.inFlight.value.stagesLeft > 0)
  }

  /** Whether a transition is in progress. */
  predicate Transitioning(s: State) {
    s.inFlight.Some?
  }

  /** The child being transitioned from; nil unless a transition is in progress. */
  function TransitionFrom(s: State): (r: Option<ChildId>)
    ensures r.Some? ==> Transitioning(s)
  {
    match s.inFlight
    case Some(t) => t.from
    case None => None
  }

  /** The child being transitioned to; set exactly while a transition is in progress. */
  function TransitionTo(s: State): (r: Option<ChildId>)
    ensures r.Some? <==> Transitioning(s)
    ensures Valid(s) && r.Some? ==> r == s.current
  {
    match s.inFlight
    case Some(t) => Some(t.to)
    case None => None
  }

  /** Invoking an optional completion block. */
  function Notify(completion: Option<Token>, finished: bool): (r: seq<Report>)
    ensures |r| <= 1
    ensures forall k :: 0 <= k < |r| ==> r[k].finished == finished
    ensures r != [] <==> completion.Some?
  {
    match completion
    case Some(t) => [Report(t, finished)]
    case None => []
  }

  /** The completion block of the in-flight transition, if any. */
  function PendingCompletion(s: State): Option<Token> {
    match s.inFlight
    case Some(t) => t.completion
    case None => None
  }

  /**
   * The pre-animation setup of a new transition is skipped only when the flag is off and the new transition
   * goes back to the child the interrupted transition was leaving.
   */
  predicate SkipsPreSetup(s: State, target: ChildId) {
    && !s.preAnimateOnReverseInterrupt
    && s.inFlight.Some?
    && s.inFlight.value.from == Some(target)
  }

  /**
   * What a successful switch to `target` promises. Only the current child and the in-flight transition
   * change: the children, both flags and the preset are kept. A staged switch (animated, with at least one
   * stage) starts a transition from the child the running one was going to, or else from the current child,
   * carrying the caller's completion; an immediate one leaves none running. A superseded transition's
   * completion is reported first with finished NO, and an immediate switch then reports the caller's with YES.
   */
  predicate SwitchedTo(s: State, target: ChildId, animated: bool, anim: Animation, completion: Option<Token>,
                       after: State, reports: seq<Report>)
  {
    var staged := animated && anim.blocks > 0;
    && after == s.(current := Some(target), inFlight := after.inFlight)
    && after.inFlight == (if staged then Some(Transition(
         if Transitioning(s) then TransitionTo(s) else s.current, target, completion, anim.blocks)) else None)
    && reports == Notify(PendingCompletion(s), false) + (if staged then [] else Notify(completion, true))
  }

  /**
   * The full switch operation. A target that is not managed raises; so do mismatched animation arrays when
   * animating. An unanimated switch, or one with no stages, resolves at once. Otherwise a transition starts
   * from the current child; if one was already running it is superseded: its completion block is told it
   * did not finish, and the new transition starts from the child the old one was going to.
   */
  function SwitchTo(s: State, target: ChildId, animated: bool, anim: Animation, completion: Option<Token>)
    : (r: Result<Outcome, Error>)
    ensures target !in s.children ==> r == Err(NotAMember)
    ensures target in s.children && animated && !WellFormed(anim) ==> r == Err(MalformedTransition)
    ensures r.Err? <==> target !in s.children || (animated && !WellFormed(anim))
    ensures r.Ok? ==>
      var o := r.value.state;
      && o.current == Some(target)
      && o.children == s.children
      && o.animateAtCurrentIndex == s.animateAtCurrentIndex
      && o.preAnimateOnReverseInterrupt == s.preAnimateOnReverseInterrupt
      && o.preset == s.preset
      && (Transitioning(o) <==> animated && anim.blocks > 0)
    // the superseded transition, if any, reports first, and not finished
    ensures r.Ok? ==> Notify(PendingCompletion(s), false) <= r.value.reports
    // an immediate switch completes at once; an animated one defers its own completion
    ensures r.Ok? && !(animated && anim.blocks > 0) ==>
      r.value.reports == Notify(PendingCompletion(s), false) + Notify(completion, true)
    ensures r.Ok? && animated && anim.blocks > 0 ==>
      && r.value.reports == Notify(PendingCompletion(s), false)
      && r.value.state.inFlight == Some(Transition(
           if Transitioning(s) then TransitionTo(s) else s.current, target, completion, anim.blocks))
    // interruption chains through the child being transitioned to
    ensures r.Ok? && animated && anim.blocks > 0 && Transitioning(s) ==>
      TransitionFrom(r.value.state) == TransitionTo(s)
    ensures r.Ok? ==>
      (r.value.ranPreSetup <==> anim.preSetup && !SkipsPreSetup(s, target))
    ensures r.Ok? ==> SwitchedTo(s, target, animated, anim, completion, r.value.state, r.value.reports)
    ensures r.Ok? && NoDuplicates(s.children) && WellFormed(s.preset) ==> Valid(r.value.state)
  {
    if target !in s.children then Err(NotAMember)
    else if animated && !WellFormed(anim) then Err(MalformedTransition)
    else
      var superseded := Notify(PendingCompletion(s), false);
      if !animated || anim.blocks == 0 then
        Ok(Outcome(s.(current := Some(target), inFlight := None), superseded + Notify(completion, true),
                   anim.preSetup && !SkipsPreSetup(s, target)))
      else
        var from := match s.inFlight
                    case Some(t) => Some(t.to)
                    case None => s.current;
        var next := Transition(from, target, completion, anim.blocks);
        Ok(Outcome(s.(current := Some(target), inFlight := Some(next)), superseded,
                   anim.preSetup && !SkipsPreSetup(s, target)))
  }

  /**
   * The simplified switch API: the subclass's own transition (the preset) when animating. With the base
   * class's preset this switches without animation.
   */
  function SwitchToSimplified(s: State, target: ChildId, animated: bool, completion: Option<Token>)
    : (r: Result<Outcome, Error>)
    ensures r.Err? <==> target !in s.children || (animated && !WellFormed(s.preset))
    ensures r.Ok? ==> r.value.state.current == Some(target) && r.value.state.children == s.children
    ensures r.Ok? ==> (Transitioning(r.value.state) <==> animated && s.preset.blocks > 0)
    ensures r.Ok? ==> SwitchedTo(s, target, animated, s.preset, completion, r.value.state, r.value.reports)
    ensures r.Ok? ==> (r.value.ranPreSetup <==> s.preset.preSetup && !SkipsPreSetup(s, target))
    ensures s.preset == Unanimated && r.Ok? ==>
      && !Transitioning(r.value.state)
      && r.value.reports == Notify(PendingCompletion(s), false) + Notify(completion, true)
    ensures r.Ok? && NoDuplicates(s.children) && WellFormed(s.preset) ==> Valid(r.value.state)
  {
    SwitchTo(s, target, animated, s.preset, completion)
  }

  /** Switching by position: the child at `index` must exist, and then it is the simplified switch to that child. */
  function SwitchToIndex(s: State, index: nat, animated: bool, completion: Option<Token>)
    : (r: Result<Outcome, Error>)
    ensures index >= |s.children| ==> r == Err(IndexOutOfRange)
    ensures index < |s.children| ==> r == SwitchToSimplified(s, s.children[index], animated, completion)
    ensures r.Ok? ==> index < |s.children| && r.value.state.current == Some(s.children[index])
  {
    if index >= |s.children| then Err(IndexOutOfRange)
    else SwitchToSimplified(s, s.children[index], animated, completion)
  }

  /** Appending a child to the managed array; it is not presented and no transition starts. */
  function Add(s: State, child: ChildId): (r: Result<State, Error>)
    ensures child in s.children ==> r == Err(AlreadyManaged)
    ensures child !in s.children ==> r.Ok?
    ensures r.Ok? ==>
      && r.value.children == s.children + [child]
      && r.value.current == s.current
      && r.value.inFlight == s.inFlight
      && r.value.preset == s.preset
    ensures r.Ok? ==> r.value == s.(children := r.value.children)
    ensures r.Ok? && Valid(s) ==> Valid(r.value)
  {
    if child in s.children then Err(AlreadyManaged)
    else
      var r := s.(children := s.children + [child]);
      assert r.children == InsertAt(s.children, |s.children|, child);
      assert Valid(s) ==> Valid(r) by {
        if Valid(s) { InsertAtMembers(s.children, |s.children|, child); }
      }
      Ok(r)
  }

  /** Whether `index` is the position of the current child. */
  predicate AtCurrentIndex(s: State, index: nat) {
    s.current.Some? && s.current.value in s.children && IndexOf(s.children, s.current.value) == index
  }

  /**
   * Inserting a child at a position. Away from the current child's position nothing else changes; at it,
   * the inserted child takes the current child's place through the simplified switch, animated exactly
   * when the animate-at-current-index flag is set and the preset has stages.
   */
  function Insert(s: State, child: ChildId, index: nat): (r: Result<Outcome, Error>)
    ensures child in s.children ==> r == Err(AlreadyManaged)
    ensures child !in s.children && index > |s.children| ==> r == Err(IndexOutOfRange)
    ensures r.Ok? ==> r.value.state.children == InsertAt(s.children, index, child)
    ensures r.Ok? && !AtCurrentIndex(s, index) ==>
      r.value.state == s.(children := r.value.state.children) && r.value.reports == []
    ensures r.Ok? && AtCurrentIndex(s, index) ==>
      && r.value.state.current == Some(child)
      && (Transitioning(r.value.state) <==> s.animateAtCurrentIndex && s.preset.blocks > 0)
      && SwitchedTo(s.(children := InsertAt(s.children, index, child)), child, s.animateAtCurrentIndex, s.preset,
                    None, r.value.state, r.value.reports)
    // the switch at the current index runs the preset's setup under the reverse-interrupt rule; no other insert runs it
    ensures r.Ok? ==>
      (r.value.ranPreSetup <==> AtCurrentIndex(s, index) && s.preset.preSetup && !SkipsPreSetup(s, child))
    ensures Valid(s) && child !in s.children && index <= |s.children| ==> r.Ok? && Valid(r.value.state)
  {
    if child in s.children then Err(AlreadyManaged)
    else if index > |s.children| then Err(IndexOutOfRange)
    else
      var inserted := s.(children := InsertAt(s.children, index, child));
      assert Valid(s) ==> Valid(inserted) by {
        if Valid(s) { InsertAtMembers(s.children, index, child); }
      }
      if AtCurrentIndex(s, index) then
        SwitchToSimplified(inserted, child, s.animateAtCurrentIndex, None)
      else
        Ok(Outcome(inserted, [], false))
  }

  /** The child that replaces a removed current child at `index`: the one now at that position, else the new last one. */
  function Successor(rest: seq<ChildId>, index: nat): (c: ChildId)
    requires |rest| > 0
    ensures c in rest
    ensures index < |rest| ==> c == rest[index]
    ensures index >= |rest| ==> c == Last(rest)
  {
    if index < |rest| then rest[index] else rest[|rest| - 1]
  }

  /** The switch that follows removing the current child when others remain: to its successor, by the simplified switch. */
  function SwitchToSuccessor(s: State, rest: seq<ChildId>, index: nat): (r: Result<Outcome, Error>)
    requires |rest| > 0
    ensures r.Ok? ==>
      && r.value.state.children == rest
      && r.value.state.current == Some(Successor(rest, index))
      && r.value.reports == Notify(PendingCompletion(s), false)
      && (Transitioning(r.value.state) <==> s.animateAtCurrentIndex && s.preset.blocks > 0)
    ensures r.Ok? ==>
      SwitchedTo(s.(children := rest), Successor(rest, index), s.animateAtCurrentIndex, s.preset, None,
                 r.value.state, r.value.reports)
    ensures r.Ok? ==> (r.value.ranPreSetup <==> s.preset.preSetup && !SkipsPreSetup(s, Successor(rest, index)))
    ensures NoDuplicates(rest) && WellFormed(s.preset) ==> r.Ok? && Valid(r.value.state)
  {
    SwitchToSimplified(s.(children := rest), Successor(rest, index), s.animateAtCurrentIndex, None)
  }

  /**
   * Removing a managed child. Another child's removal changes nothing else. Removing the current child
   * switches to its successor through the simplified switch, animated exactly when the animate-at-current-index
   * flag is set and the preset has stages; removing the last child leaves no current child and supersedes a
   * running transition.
   */
  function Remove(s: State, child: ChildId): (r: Result<Outcome, Error>)
    ensures child !in s.children ==> r == Err(NotFound)
    ensures r.Ok? ==> child in s.children && r.value.state.children == RemoveAt(s.children, IndexOf(s.children, child))
    ensures r.Ok? && s.current != Some(child) ==>
      r.value.state == s.(children := r.value.state.children) && r.value.reports == []
    ensures r.Ok? && s.current == Some(child) && |s.children| == 1 ==>
      && r.value.state.current == None && !Transitioning(r.value.state)
      && r.value.reports == Notify(PendingCompletion(s), false)
      && r.value.state == s.(children := [], current := None, inFlight := None)
    ensures r.Ok? && s.current == Some(child) && |s.children| > 1 ==>
      var i := IndexOf(s.children, child);
      && r.value.state.current == Some(Successor(RemoveAt(s.children, i), i))
      && r.value.reports == Notify(PendingCompletion(s), false)
      && (Transitioning(r.value.state) <==> s.animateAtCurrentIndex && s.preset.blocks > 0)
      && SwitchedTo(s.(children := RemoveAt(s.children, i)), Successor(RemoveAt(s.children, i), i),
                    s.animateAtCurrentIndex, s.preset, None, r.value.state, r.value.reports)
      && (r.value.ranPreSetup <==> s.preset.preSetup && !SkipsPreSetup(s, Successor(RemoveAt(s.children, i), i)))
    ensures r.Ok? && !(s.current == Some(child) && |s.children| > 1) ==> !r.value.ranPreSetup
    ensures Valid(s) && child in s.children ==>
      && r.Ok?
      && Valid(r.value.state)
      && child !in r.value.state.children
      && r.value.state.current != Some(child)
  {
    if child !in s.children then Err(NotFound)
    else
      var i := IndexOf(s.children, child);
      var rest := RemoveAt(s.children, i);
      assert NoDuplicates(s.children) ==> NoDuplicates(rest) && forall y :: y in rest <==> y in s.children && y != child by {
        if NoDuplicates(s.children) { RemoveAtMembers(s.children, i); }
      }
      if s.current != Some(child) then
        Ok(Outcome(s.(children := rest), [], false))
      else if rest == [] then
        Ok(Outcome(s.(children := [], current := None, inFlight := None), Notify(PendingCompletion(s), false), false))
      else
        SwitchToSuccessor(s, rest, i)
  }

  /**
   * Reacting to an event. A finished stage advances the running transition, and the last one completes it:
   * the transition is cleared and its completion block is told it finished. The container going off screen
   * leaves a transition running; once it is off screen a running transition is completed at once.
   * Events never change the children or the current child.
   */
  function Handle(s: State, e: Event): (r: Outcome)
    ensures r.state.children == s.children && r.state.current == s.current && r.state.preset == s.preset
    ensures r.state == s.(inFlight := r.state.inFlight)
    ensures !r.ranPreSetup
    ensures !Transitioning(s) ==> r.state == s && r.reports == []
    ensures e == ContainerWillDisappear ==> r.state == s && r.reports == []
    ensures e == ContainerDidDisappear ==>
      !Transitioning(r.state) && r.reports == Notify(PendingCompletion(s), true)
    ensures e == StageCompleted && Transitioning(s) && s.inFlight.value.stagesLeft > 1 ==>
      && r.state.inFlight == Some(s.inFlight.value.(stagesLeft := s.inFlight.value.stagesLeft - 1))
      && r.reports == []
    ensures e == StageCompleted && Transitioning(s) && s.inFlight.value.stagesLeft <= 1 ==>
      && !Transitioning(r.state)
      && TransitionFrom(r.state) == None && TransitionTo(r.state) == None
      && r.reports == Notify(PendingCompletion(s), true)
    ensures Valid(s) ==> Valid(r.state)
  {
    match s.inFlight
    case None => Outcome(s, [], false)
    case Some(t) =>
      match e
      case ContainerWillDisappear => Outcome(s, [], false)
      case ContainerDidDisappear => Outcome(s.(inFlight := None), Notify(t.completion, true), false)
      case StageCompleted =>
        if t.stagesLeft > 1 then Outcome(s.(inFlight := Some(t.(stagesLeft := t.stagesLeft - 1))), [], false)
        else Outcome(s.(inFlight := None), Notify(t.completion, true), false)
  }
}

=== FILE: container_runs.dfy ===
/**
 * Sequences of container operations and events: the invariant holds along any run, events alone never move
 * the current child, a transition with n stages ends after its n stage completions, and an interrupted
 * transition ends at the interrupting target.
 */
module ContainerRuns {
  import opened Wrappers
  import opened Sequences
  import opened Container

  /** Feeding events in order; the completion reports are collected in the order they were made. */
  function RunEvents(s: State, es: seq<Event>): (r: Outcome)
    ensures !r.ranPreSetup
    decreases |es|
  {
    if es == [] then Outcome(s, [], false)
    else
      var first := Handle(s, es[0]);
      var rest := RunEvents(first.state, es[1..]);
      Outcome(rest.state, first.reports + rest.reports, false)
  }

  /** `n` stage completions in a row. */
  function Stages(n: nat): (es: seq<Event>)
    ensures |es| == n
    ensures forall k :: 0 <= k < n ==> es[k] == StageCompleted
  {
    seq(n, _ => StageCompleted)
  }

  /** Events keep the managed children and the current child, and keep the invariant. */
  lemma {:induction false} EventsKeepCurrent(s: State, es: seq<Event>)
    ensures RunEvents(s, es).state.children == s.children
    ensures RunEvents(s, es).state.current == s.current
    ensures Valid(s) ==> Valid(RunEvents(s, es).state)
    decreases |es|
  {
    if es != [] {
      EventsKeepCurrent(Handle(s, es[0]).state, es[1..]);
    }
  }

  /**
   * A running transition with n stages left stays in progress through fewer than n stage completions,
   * and the n-th one ends it, reporting its completion block as finished and nothing else.
   */
  lemma {:induction false} StagesComplete(s: State, t: Transition)
    requires s.inFlight == Some(t) && t.stagesLeft > 0
    ensures RunEvents(s, Stages(t.stagesLeft)).state == s.(inFlight := None)
    ensures RunEvents(s, Stages(t.stagesLeft)).reports == Notify(t.completion, true)
    ensures forall k :: 0 <= k < t.stagesLeft ==> Transitioning(RunEvents(s, Stages(k)).state)
    decreases t.stagesLeft
  {
    var n := t.stagesLeft;
    var first := Handle(s, StageCompleted);
    assert Stages(n)[1..] == Stages(n - 1);
    if n == 1 {
      assert Stages(0) == [];
    } else {
      var t' := t.(stagesLeft := n - 1);
      assert first.state == s.(inFlight := Some(t'));
      StagesComplete(first.state, t');
      forall k | 0 <= k < n
        ensures Transitioning(RunEvents(s, Stages(k)).state)
      {
        if k > 0 {
          assert Stages(k)[0] == StageCompleted && Stages(k)[1..] == Stages(k - 1);
        }
      }
    }
  }

  /**
   * An animated switch made while idle, followed by one completion per stage: the container ends idle on
   * the target, and the only completion reported is the caller's, as finished.
   */
  lemma UninterruptedSwitchCompletes(s: State, target: ChildId, anim: Animation, completion: Option<Token>)
    requires Valid(s) && !Transitioning(s) && target in s.children
    requires WellFormed(anim) && anim.blocks > 0
    ensures SwitchTo(s, target, true, anim, completion).Ok?
    ensures
      var started := SwitchTo(s, target, true, anim, completion).value;
      var done := RunEvents(started.state, Stages(anim.blocks));
      && started.reports == []
      && Transitioning(started.state)
      && TransitionFrom(started.state) == s.current
      && TransitionTo(started.state) == Some(target)
      && done.state.current == Some(target)
      && !Transitioning(done.state)
      && TransitionFrom(done.state) == None
      && done.reports == Notify(completion, true)
      && Valid(done.state)
  {
    var started := SwitchTo(s, target, true, anim, completion).value;
    StagesComplete(started.state, started.state.inFlight.value);
  }

  /**
   * A transition from A to B interrupted by an animated switch to C: the first caller is told its
   * transition did not finish, the running transition becomes B to C, and after its stages the container
   * rests on C with the second caller told it finished.
   */
  lemma InterruptedSwitchResolves(
    s: State, c: ChildId, anim: Animation, first: Token, second: Token)
    requires Valid(s) && Transitioning(s) && s.inFlight.value.completion == Some(first)
    requires c in s.children && WellFormed(anim) && anim.blocks > 0
    ensures SwitchTo(s, c, true, anim, Some(second)).Ok?
    ensures
      var b := s.inFlight.value.to;
      var next := SwitchTo(s, c, true, anim, Some(second)).value;
      var done := RunEvents(next.state, Stages(anim.blocks));
      && next.reports == [Report(first, false)]
      && TransitionFrom(next.state) == Some(b)
      && TransitionTo(next.state) == Some(c)
      && next.state.current == Some(c)
      && done.state.current == Some(c)
      && !Transitioning(done.state)
      && done.reports == [Report(second, true)]
  {
    var next := SwitchTo(s, c, true, anim, Some(second)).value;
    StagesComplete(next.state, next.state.inFlight.value);
  }

  /**
   * Interrupting a transition with one back to the child it was leaving runs the new pre-animation setup
   * exactly when the flag is set; every other interruption runs it whenever one is given.
   */
  lemma ReverseInterruptSkipsSetup(s: State, target: ChildId, anim: Animation)
    requires Valid(s) && Transitioning(s) && target in s.children
    requires WellFormed(anim) && anim.blocks > 0 && anim.preSetup
    ensures TransitionFrom(s) == Some(target) ==>
      (SwitchTo(s, target, true, anim, None).value.ranPreSetup <==> s.preAnimateOnReverseInterrupt)
    ensures TransitionFrom(s) != Some(target) ==> SwitchTo(s, target, true, anim, None).value.ranPreSetup
  {
  }

  /** The operations a caller can apply to a base container. */
  datatype Op =
    | AddOp(child: ChildId)
    | InsertOp(child: ChildId, index: nat)
    | RemoveOp(child: ChildId)
    | SwitchOp(target: ChildId, animated: bool, anim: Animation, completion: Option<Token>)
    | SimplifiedSwitchOp(target: ChildId, animated: bool, completion: Option<Token>)
    | IndexSwitchOp(index: nat, animated: bool, completion: Option<Token>)
    | EventOp(event: Event)

  /** One operation; a raised error leaves the container as it was. */
  function Step(s: State, op: Op): (r: State)
    ensures Valid(s) ==> Valid(r)
  {
    match op
    case AddOp(c) => (match Add(s, c) case Ok(o) => o case Err(_) => s)
    case InsertOp(c, i) => (match Insert(s, c, i) case Ok(o) => o.state case Err(_) => s)
    case RemoveOp(c) => (match Remove(s, c) case Ok(o) => o.state case Err(_) => s)
    case SwitchOp(t, a, anim, k) => (match SwitchTo(s, t, a, anim, k) case Ok(o) => o.state case Err(_) => s)
    case SimplifiedSwitchOp(t, a, k) => (match SwitchToSimplified(s, t, a, k) case Ok(o) => o.state case Err(_) => s)
    case IndexSwitchOp(i, a, k) => (match SwitchToIndex(s, i, a, k) case Ok(o) => o.state case Err(_) => s)
    case EventOp(e) => Handle(s, e).state
  }

  /** Operations applied in order. */
  function Run(s: State, ops: seq<Op>): State
    decreases |ops|
  {
    if ops == [] then s else Run(Step(s, ops[0]), ops[1..])
  }

  /**
   * Along any run from a valid container (in particular from a fresh one) the invariant holds: children stay
   * distinct, the current child is absent or managed, and a running transition targets the current child.
   */
  lemma {:induction false} RunPreservesValid(s: State, ops: seq<Op>)
    requires Valid(s)
    ensures Valid(Run(s, ops))
    decreases |ops|
  {
    if ops != [] {
      RunPreservesValid(Step(s, ops[0]), ops[1..]);
    }
  }

  /** A fresh container satisfies the invariant, is idle, and never skips a pre-animation setup. */
  lemma InitialIsValid()
    ensures Valid(Initial) && !Transitioning(Initial)
    ensures forall c: ChildId :: !SkipsPreSetup(Initial, c)
  {
  }
}

=== FILE: sequences.dfy ===
/** Sequence helpers for the ordered child arrays: positional insert and remove, lookup and reversal. */
module Sequences {

  /** No element occurs twice. */
  predicate NoDuplicates<T(==)>(s: seq<T>) {
    forall i, j :: 0 <= i < j < |s| ==> s[i] != s[j]
  }

  /** The position of the first occurrence of `x` in `s`. */
  function IndexOf<T(==)>(s: seq<T>, x: T): (i: nat)
    requires x in s
    ensures i < |s| && s[i] == x
    ensures forall j :: 0 <= j < i ==> s[j] != x
  {
    if s[0] == x then 0 else 1 + IndexOf(s[1..], x)
  }

  /** The last element of a non-empty sequence. Its ensures unfolds the body for the solver. */
  function Last<T>(s: seq<T>): (x: T)
    requires |s| > 0
    ensures x == s[|s| - 1]
  {
    s[|s| - 1]
  }

  /** `s` with `x` placed at position `i`; the elements from `i` on move up by one. */
  function InsertAt<T>(s: seq<T>, i: nat, x: T): (r: seq<T>)
    requires i <= |s|
    ensures |r| == |s| + 1
    ensures r[i] == x
    ensures forall j :: 0 <= j < i ==> r[j] == s[j]
    ensures forall j :: i <= j < |s| ==> r[j + 1] == s[j]
  {
    s[..i] + [x] + s[i..]
  }

  /** `s` without the element at position `i`; the elements after it move down by one. */
  function RemoveAt<T>(s: seq<T>, i: nat): (r: seq<T>)
    requires i < |s|
    ensures |r| == |s| - 1
    ensures forall j :: 0 <= j < i ==> r[j] == s[j]
    ensures forall j :: i <= j < |r| ==> r[j] == s[j + 1]
  {
    s[..i] + s[i + 1..]
  }

  /** The elements of `s` in the opposite order. */
  function Reverse<T>(s: seq<T>): (r: seq<T>)
    ensures |r| == |s|
    ensures forall i :: 0 <= i < |s| ==> r[i] == s[|s| - 1 - i]
  {
    if s == [] then [] else Reverse(s[1..]) + [s[0]]
  }

  /** Inserting a fresh element keeps the elements distinct and adds exactly that element. */
  lemma InsertAtMembers<T>(s: seq<T>, i: nat, x: T)
    requires i <= |s| && NoDuplicates(s) && x !in s
    ensures NoDuplicates(InsertAt(s, i, x))
    ensures forall y :: y in InsertAt(s, i, x) <==> y in s || y == x
  {
  }

  /** Removing a position of a duplicate-free sequence removes exactly the element held there. */
  lemma RemoveAtMembers<T>(s: seq<T>, i: nat)
    requires i < |s| && NoDuplicates(s)
    ensures NoDuplicates(RemoveAt(s, i))
    ensures forall y :: y in RemoveAt(s, i) <==> y in s && y != s[i]
  {
  }

  /** Cutting a reversed suffix one element shorter: the removed head becomes the new last element. */
  lemma ReverseUncons<T>(s: seq<T>, j: nat)
    requires 0 < j <= |s|
    ensures Reverse(s[j - 1..]) == Reverse(s[j..]) + [s[j - 1]]
  {
  }

  /** A stack cut below position `k + 1`: the prefix followed by the reversed list of taken elements, reversed back. */
  lemma CutAt<T>(s: seq<T>, k: nat)
    requires k < |s|
    ensures s[..k + 1] + Reverse(Reverse(s[k + 1..])) == s
  {
  }
}

=== FILE: stack_container.dfy ===
/**
 * The stack container: a base container whose managed array is a stack (index 0 is the root, the last
 * element the top). It is set up once with a root, then changed only by push and pop; the current child is
 * always the top. Push and pop animate with the presets of the configured direction, the pop direction
 * being the opposite of the push direction.
 */
module StackContainer {
  import opened Wrappers
  import opened Sequences
  import opened Container

  /** A screen direction for a transition's animation. */
  datatype Motion = Up | Down | Left | Right

  /** The reverse screen direction. */
  function Opposite(m: Motion): (r: Motion)
    ensures r != m
  {
    match m
    case Up => Down
    case Down => Up
    case Left => Right
    case Right => Left
  }

  /** The four push/pop direction settings. */
  datatype Direction = PushUpPopDown | PushDownPopUp | PushLeftPopRight | PushRightPopLeft

  /** The direction pushes animate in. */
  function PushMotion(d: Direction): Motion {
    match d
    case PushUpPopDown => Up
    case PushDownPopUp => Down
    case PushLeftPopRight => Left
    case PushRightPopLeft => Right
  }

  /** The direction pops animate in: always the reverse of the push direction. */
  function PopMotion(d: Direction): (m: Motion)
    ensures m == Opposite(PushMotion(d))
  {
    match d
    case PushUpPopDown => Down
    case PushDownPopUp => Up
    case PushLeftPopRight => Right
    case PushRightPopLeft => Left
  }

  /** The setting whose pushes animate in `m`; each push direction belongs to exactly one setting. */
  function DirectionPushing(m: Motion): (d: Direction)
    ensures PushMotion(d) == m
    ensures forall d' :: PushMotion(d') == m ==> d' == d
  {
    match m
    case Up => PushUpPopDown
    case Down => PushDownPopUp
    case Left => PushLeftPopRight
    case Right => PushRightPopLeft
  }

  /** The animation a subclass supplies for each screen direction. */
  datatype Presets = Presets(up: Animation, down: Animation, left: Animation, right: Animation)

  /** The preset for one direction. */
  function PresetFor(p: Presets, m: Motion): Animation {
    match m
    case Up => p.up
    case Down => p.down
    case Left => p.left
    case Right => p.right
  }

  /** Every preset's arrays describe the same stages. */
  predicate PresetsWellFormed(p: Presets) {
    WellFormed(p.up) && WellFormed(p.down) && WellFormed(p.left) && WellFormed(p.right)
  }

  /** A stack container: the engine state, whether the root was set, the direction setting and the presets. */
  datatype Stack = Stack(engine: State, isSetUp: bool, direction: Direction, presets: Presets)

  /** The errors a stack container raises; each leaves the stack as it was. */
  datatype StackError =
    | Engine(error: Error)  // raised by the base container
    | AlreadySetUp          // the root was set before
    | NotSetUp              // push or pop before the root was set
    | Unsupported           // direct add or remove, which the stack disables
    | EmptyStack            // pop with only the root left

  /** What a push or pop produced: the new stack, the completion reports, whether setup ran, and the children popped. */
  datatype StackOutcome = StackOutcome(stack: Stack, reports: seq<Report>, ranPreSetup: bool, popped: seq<ChildId>)

  /** A fresh stack container: nothing set up. */
  function NewStack(direction: Direction, presets: Presets): (st: Stack)
    requires PresetsWellFormed(presets)
    ensures StackValid(st) && !st.isSetUp && Root(st) == None
  {
    Stack(Initial, false, direction, presets)
  }

  /**
   * The stack invariant: the engine's invariant holds, the array is empty exactly until the root is set,
   * the current child is the top, and the presets are well formed.
   */
  predicate StackValid(st: Stack) {
    && Valid(st.engine)
    && (st.isSetUp <==> st.engine.children != [])
    && (st.isSetUp ==> st.engine.current == Some(Last(st.engine.children)))
    && PresetsWellFormed(st.presets)
  }

  /** The bottom of the stack, once set up. */
  function Root(st: Stack): Option<ChildId> {
    if st.engine.children == [] then None else Some(st.engine.children[0])
  }

  /** The top of the stack, once set up. */
  function Top(st: Stack): (r: Option<ChildId>)
    ensures StackValid(st) ==> r == st.engine.current
  {
    if st.engine.children == [] then None else Some(Last(st.engine.children))
  }

  /** Setting the root: allowed once, and it makes the root the current child without animation. */
  function SetupWithRoot(st: Stack, root: ChildId): (r: Result<Stack, StackError>)
    ensures st.isSetUp ==> r == Err(AlreadySetUp)
    ensures !st.isSetUp ==> r.Ok?
    ensures r.Ok? ==>
      && r.value.isSetUp
      && Root(r.value) == Some(root) && Top(r.value) == Some(root)
      && r.value.engine.current == Some(root)
      && !Transitioning(r.value.engine)
    // the array is exactly the root, and the direction, presets, flags and preset are kept
    ensures r.Ok? ==>
      && r.value.engine.children == [root]
      && r.value.direction == st.direction && r.value.presets == st.presets
      && r.value.engine == st.engine.(children := [root], current := Some(root), inFlight := r.value.engine.inFlight)
    ensures r.Ok? && StackValid(st) ==> StackValid(r.value)
  {
    if st.isSetUp then Err(AlreadySetUp)
    else Ok(st.(engine := st.engine.(children := [root], current := Some(root), inFlight := None), isSetUp := true))
  }

  /** A direct edit of the managed array, bypassing push and pop. */
  datatype DirectEdit = AddEdit(child: ChildId) | InsertEdit(child: ChildId, index: nat) | RemoveEdit(child: ChildId)

  /** Direct adding, inserting and removing are disabled on a stack container: each raises. */
  function EditDirectly(st: Stack, edit: DirectEdit): (r: Result<Stack, StackError>)
    ensures r == Err(Unsupported)
  {
    Err(Unsupported)
  }

  /** Carries a base-container switch result over to the stack. Its ensures unfold the body for the solver. */
  function Lift(st: Stack, r: Result<Outcome, Error>, popped: seq<ChildId>)
    : (l: Result<StackOutcome, StackError>)
    ensures r.Err? ==> l == Err(Engine(r.error))
    ensures r.Ok? ==> l == Ok(StackOutcome(st.(engine := r.value.state), r.value.reports, r.value.ranPreSetup, popped))
  {
    match r
    case Err(e) => Err(Engine(e))
    case Ok(o) => Ok(StackOutcome(st.(engine := o.state), o.reports, o.ranPreSetup, popped))
  }

  /**
   * The full push: the child goes on top of the stack and the container switches to it with the given
   * animation. Before setup, or with a child already on the stack, it raises.
   */
  function PushWith(st: Stack, child: ChildId, animated: bool, anim: Animation, completion: Option<Token>)
    : (r: Result<StackOutcome, StackError>)
    ensures !st.isSetUp ==> r == Err(NotSetUp)
    ensures st.isSetUp && child in st.engine.children ==> r == Err(Engine(AlreadyManaged))
    ensures st.isSetUp && child !in st.engine.children && animated && !WellFormed(anim) ==>
      r == Err(Engine(MalformedTransition))
    ensures st.isSetUp && child !in st.engine.children && (!animated || WellFormed(anim)) ==> r.Ok?
    ensures r.Ok? ==>
      var o := r.value.stack;
      && o.engine.children == st.engine.children + [child]
      && Top(o) == Some(child)
      && (st.engine.children != [] ==> Root(o) == Root(st))
      && o.engine.current == Some(child)
      && (Transitioning(o.engine) <==> animated && anim.blocks > 0)
      && (Transitioning(o.engine) ==> TransitionTo(o.engine) == Some(child))
      && r.value.popped == []
    // the push is a switch on the grown array: reports, in-flight pair and frame as the base switch promises
    ensures r.Ok? ==>
      && r.value.stack == st.(engine := r.value.stack.engine)
      && SwitchedTo(st.engine.(children := st.engine.children + [child]), child, animated, anim, completion,
                    r.value.stack.engine, r.value.reports)
      && (r.value.ranPreSetup <==> anim.preSetup && !SkipsPreSetup(st.engine, child))
    ensures r.Ok? && StackValid(st) ==> StackValid(r.value.stack)
  {
    if !st.isSetUp then Err(NotSetUp)
    else if child in st.engine.children then Err(Engine(AlreadyManaged))
    else
      var pushed := st.engine.children + [child];
      assert StackValid(st) ==> NoDuplicates(pushed) by {
        if StackValid(st) {
          assert pushed == InsertAt(st.engine.children, |st.engine.children|, child);
          InsertAtMembers(st.engine.children, |st.engine.children|, child);
        }
      }
      Lift(st, SwitchTo(st.engine.(children := pushed), child, animated, anim, completion), [])
  }

  /** The two parts of a stack cut just above a child: what stays, and what is taken off, top first. */
  datatype Cut = Cut(remaining: seq<ChildId>, popped: seq<ChildId>)

  /**
   * Cutting a stack just above `target`: the remaining stack is the prefix ending at `target`, and the
   * popped children, reversed, are exactly the children that were above it.
   */
  function CutAbove(stack: seq<ChildId>, target: ChildId): (c: Cut)
    requires target in stack
    ensures c.remaining == stack[..IndexOf(stack, target) + 1]
    ensures c.popped == Reverse(stack[IndexOf(stack, target) + 1..])
    ensures |c.remaining| > 0 && Last(c.remaining) == target && c.remaining[0] == stack[0]
    ensures c.remaining + Reverse(c.popped) == stack
    ensures c.popped == [] <==> IndexOf(stack, target) == |stack| - 1
    ensures NoDuplicates(stack) ==> NoDuplicates(c.remaining)
    ensures NoDuplicates(stack) ==> (c.popped == [] <==> Last(stack) == target)
  {
    var k := IndexOf(stack, target);
    CutAt(stack, k);
    var remaining := stack[..k + 1];
    assert NoDuplicates(stack) ==> NoDuplicates(remaining) by {
      if NoDuplicates(stack) {
        assert forall i :: 0 <= i < |remaining| ==> remaining[i] == stack[i];
      }
    }
    assert NoDuplicates(stack) && k < |stack| - 1 ==> stack[|stack| - 1] != target by {
      if NoDuplicates(stack) && k < |stack| - 1 {
        assert stack[k] != stack[|stack| - 1];
      }
    }
    Cut(remaining, Reverse(stack[k + 1..]))
  }

  /**
   * The full pop-to: every child above `target` leaves the stack, and the container switches to `target`
   * with the given animation. The popped children are returned top first. When `target` is already the top,
   * nothing is popped, no transition starts and the completion block is told it finished.
   */
  function PopToWith(st: Stack, target: ChildId, animated: bool, anim: Animation, completion: Option<Token>)
    : (r: Result<StackOutcome, StackError>)
    ensures !st.isSetUp ==> r == Err(NotSetUp)
    ensures st.isSetUp && target !in st.engine.children ==> r == Err(Engine(NotAMember))
    ensures (st.isSetUp && target in st.engine.children && IndexOf(st.engine.children, target) != |st.engine.children| - 1
             && animated && !WellFormed(anim)) ==> r == Err(Engine(MalformedTransition))
    ensures (st.isSetUp && target in st.engine.children
             && (!animated || WellFormed(anim) || IndexOf(st.engine.children, target) == |st.engine.children| - 1))
            ==> r.Ok?
    ensures r.Ok? ==>
      && target in st.engine.children
      && r.value.stack.engine.children == CutAbove(st.engine.children, target).remaining
      && r.value.popped == CutAbove(st.engine.children, target).popped
      && Top(r.value.stack) == Some(target)
      && Root(r.value.stack) == Root(st)
    ensures r.Ok? && r.value.popped == [] ==> r.value.stack == st && r.value.reports == Notify(completion, true)
    ensures r.Ok? && r.value.popped != [] ==>
      && r.value.stack.engine.current == Some(target)
      && (Transitioning(r.value.stack.engine) <==> animated && anim.blocks > 0)
      && r.value.stack == st.(engine := r.value.stack.engine)
      && SwitchedTo(st.engine.(children := CutAbove(st.engine.children, target).remaining), target, animated, anim,
                    completion, r.value.stack.engine, r.value.reports)
      && (r.value.ranPreSetup <==> anim.preSetup && !SkipsPreSetup(st.engine, target))
    ensures r.Ok? && StackValid(st) ==> StackValid(r.value.stack)
  {
    if !st.isSetUp then Err(NotSetUp)
    else if target !in st.engine.children then Err(Engine(NotAMember))
    else
      var cut := CutAbove(st.engine.children, target);
      if cut.popped == [] then
        Ok(StackOutcome(st, Notify(completion, true), false, []))
      else
        Lift(st, SwitchTo(st.engine.(children := cut.remaining), target, animated, anim, completion),
             cut.popped)
  }

  /** The full pop: pop-to the child just below the top, returning the old top. Only the root left raises. */
  function PopWith(st: Stack, animated: bool, anim: Animation, completion: Option<Token>)
    : (r: Result<StackOutcome, StackError>)
    ensures !st.isSetUp ==> r == Err(NotSetUp)
    ensures st.isSetUp && |st.engine.children| < 2 ==> r == Err(EmptyStack)
    ensures st.isSetUp && |st.engine.children| >= 2 ==>
      r == PopToWith(st, st.engine.children[|st.engine.children| - 2], animated, anim, completion)
    ensures r.Ok? && StackValid(st) ==> StackValid(r.value.stack)
    ensures r.Ok? && StackValid(st) ==>
      && r.value.popped == [Last(st.engine.children)]
      && r.value.stack.engine.children == st.engine.children[..|st.engine.children| - 1]
  {
    if !st.isSetUp then Err(NotSetUp)
    else if |st.engine.children| < 2 then Err(EmptyStack)
    else
      var children := st.engine.children;
      var below := children[|children| - 2];
      var r := PopToWith(st, below, animated, anim, completion);
      assert StackValid(st) ==> IndexOf(children, below) == |children| - 2;
      r
  }

  /** The full pop-to-root: pop-to the root. */
  function PopToRootWith(st: Stack, animated: bool, anim: Animation, completion: Option<Token>)
    : (r: Result<StackOutcome, StackError>)
    ensures !st.isSetUp ==> r == Err(NotSetUp)
    ensures r.Ok? && StackValid(st) ==> StackValid(r.value.stack)
    ensures r.Ok? && StackValid(st) ==>
      && r.value.stack.engine.children == [st.engine.children[0]]
      && Top(r.value.stack) == Root(st)
      && Reverse(r.value.popped) == st.engine.children[1..]
    ensures Root(st).Some? ==> r == PopToWith(st, Root(st).value, animated, anim, completion)
  {
    match Root(st)
    case None => Err(NotSetUp)
    case Some(root) =>
      var r := PopToWith(st, root, animated, anim, completion);
      assert IndexOf(st.engine.children, root) == 0;
      r
  }

  /** The preset pushes animate with under the current direction setting. */
  function PushAnimation(st: Stack): Animation {
    PresetFor(st.presets, PushMotion(st.direction))
  }

  /** The preset pops animate with: the one for the reverse of the push direction. */
  function PopAnimation(st: Stack): (a: Animation)
    ensures a == PresetFor(st.presets, Opposite(PushMotion(st.direction)))
  {
    PresetFor(st.presets, PopMotion(st.direction))
  }

  /** The simplified push: the full push with the push-direction preset. */
  function Push(st: Stack, child: ChildId, animated: bool): (r: Result<StackOutcome, StackError>)
    ensures r == PushWith(st, child, animated, PushAnimation(st), None)
    ensures r.Ok? && StackValid(st) ==> StackValid(r.value.stack)
    ensures StackValid(st) && st.isSetUp && child !in st.engine.children ==>
      r.Ok? && Top(r.value.stack) == Some(child) && StackValid(r.value.stack)
  {
    PushWith(st, child, animated, PushAnimation(st), None)
  }

  /** The simplified pop-to: the full pop-to with the pop-direction preset. */
  function PopTo(st: Stack, target: ChildId, animated: bool): (r: Result<StackOutcome, StackError>)
    ensures r == PopToWith(st, target, animated, PopAnimation(st), None)
    ensures r.Ok? && StackValid(st) ==> StackValid(r.value.stack)
    ensures StackValid(st) && st.isSetUp && target in st.engine.children ==>
      r.Ok? && Top(r.value.stack) == Some(target) && StackValid(r.value.stack)
  {
    PopToWith(st, target, animated, PopAnimation(st), None)
  }

  /** The simplified pop, made through the simplified pop-to. */
  function Pop(st: Stack, animated: bool): (r: Result<StackOutcome, StackError>)
    ensures st.isSetUp && |st.engine.children| < 2 ==> r == Err(EmptyStack)
    ensures st.isSetUp && |st.engine.children| >= 2 ==>
      r == PopTo(st, st.engine.children[|st.engine.children| - 2], animated)
    ensures r == PopWith(st, animated, PopAnimation(st), None)
    ensures r.Ok? && StackValid(st) ==> StackValid(r.value.stack)
  {
    if !st.isSetUp then Err(NotSetUp)
    else if |st.engine.children| < 2 then Err(EmptyStack)
    else PopTo(st, st.engine.children[|st.engine.children| - 2], animated)
  }

  /** The simplified pop-to-root, made through the simplified pop-to. */
  function PopToRoot(st: Stack, animated: bool): (r: Result<StackOutcome, StackError>)
    ensures Root(st).Some? ==> r == PopTo(st, Root(st).value, animated)
    ensures r == PopToRootWith(st, animated, PopAnimation(st), None)
    ensures r.Ok? && StackValid(st) ==> StackValid(r.value.stack)
  {
    match Root(st)
    case None => Err(NotSetUp)
    case Some(root) => PopTo(st, root, animated)
  }

  /**
   * Popping one child at a time, as a reference for pop-to: starting from the top, each step takes the
   * top off until `target` is the top; the children taken are collected in the order taken. The two results
   * are the `remaining` and `popped` that `CutAbove` states for pop-to.
   */
  method PopOneByOne(stack: seq<ChildId>, target: ChildId) returns (remaining: seq<ChildId>, popped: seq<ChildId>)
    requires target in stack
    ensures remaining == stack[..IndexOf(stack, target) + 1]
    ensures popped == Reverse(stack[IndexOf(stack, target) + 1..])
  {
    var k := IndexOf(stack, target);
    remaining := stack;
    popped := [];
    while |remaining| > k + 1
      invariant k + 1 <= |remaining| <= |stack|
      invariant remaining == stack[..|remaining|]
      invariant popped == Reverse(stack[|remaining|..])
      decreases |remaining|
    {
      var top := remaining[|remaining| - 1];
      ReverseUncons(stack, |remaining|);
      popped := popped + [top];
      remaining := remaining[..|remaining| - 1];
    }
  }

  /** A push followed by a pop gives back the stack's children and top, and the pop returns the pushed child. */
  lemma PushThenPop(st: Stack, child: ChildId, animated: bool)
    requires StackValid(st) && st.isSetUp && child !in st.engine.children
    ensures Push(st, child, animated).Ok?
    ensures
      var pushed := Push(st, child, animated).value.stack;
      && Pop(pushed, animated).Ok?
      && Pop(pushed, animated).value.popped == [child]
      && Pop(pushed, animated).value.stack.engine.children == st.engine.children
      && Top(Pop(pushed, animated).value.stack) == Top(st)
  {
    var pushed := Push(st, child, animated).value.stack;
    assert pushed.engine.children[..|pushed.engine.children| - 1] == st.engine.children;
  }

  /** The operations a caller can apply to a stack container. */
  datatype StackOp =
    | SetupOp(root: ChildId)
    | PushOp(child: ChildId, animated: bool)
    | PopOp(animated: bool)
    | PopToOp(target: ChildId, animated: bool)
    | PopToRootOp(animated: bool)
    | EditOp(edit: DirectEdit)
    | EventOp(event: Event)

  /**
   * The stack after an operation: the new one on success, the old one when it raised. Its ensures unfold the
   * body for the solver.
   */
  function Settle(st: Stack, r: Result<StackOutcome, StackError>): (s: Stack)
    ensures r.Err? ==> s == st
    ensures r.Ok? ==> s == r.value.stack
  {
    match r
    case Ok(o) => o.stack
    case Err(_) => st
  }

  /** One operation; a raised error leaves the stack as it was. */
  function StackStep(st: Stack, op: StackOp): (r: Stack)
    ensures StackValid(st) ==> StackValid(r)
    ensures op.EditOp? ==> r == st
    ensures op.EventOp? ==> r.engine.children == st.engine.children
  {
    match op
    case SetupOp(root) => (match SetupWithRoot(st, root) case Ok(s) => s case Err(_) => st)
    case PushOp(c, a) => Settle(st, Push(st, c, a))
    case PopOp(a) => Settle(st, Pop(st, a))
    case PopToOp(c, a) => Settle(st, PopTo(st, c, a))
    case PopToRootOp(a) => Settle(st, PopToRoot(st, a))
    case EditOp(edit) => (match EditDirectly(st, edit) case Ok(s) => s case Err(_) => st)
    case EventOp(e) => st.(engine := Handle(st.engine, e).state)
  }

  /** Operations applied in order. */
  function StackRun(st: Stack, ops: seq<StackOp>): Stack
    decreases |ops|
  {
    if ops == [] then st else StackRun(StackStep(st, ops[0]), ops[1..])
  }

  /**
   * Along any run from a valid stack the invariant holds: the current child is the top, the root never
   * changes once set, and children are distinct.
   */
  lemma {:induction false} StackRunPreservesValid(st: Stack, ops: seq<StackOp>)
    requires StackValid(st)
    ensures StackValid(StackRun(st, ops))
    ensures Top(StackRun(st, ops)) == StackRun(st, ops).engine.current
    ensures st.isSetUp ==> Root(StackRun(st, ops)) == Root(st)
    decreases |ops|
  {
    if ops != [] {
      var next := StackStep(st, ops[0]);
      assert st.isSetUp ==> Root(next) == Root(st);
      StackRunPreservesValid(next, ops[1..]);
    }
  }
}

=== FILE: tabbed_container.dfy ===
/**
 * The tabbed container: a base container whose switches are gated by an optional delegate. The delegate may
 * refuse a selection, in which case the refused hook runs and nothing changes; otherwise the approved hook
 * runs, the container switches with the tab transition (animated exactly when `animateTransitions` is set),
 * and the delegate is told of the selection.
 */
module TabbedContainer {
  import opened Wrappers
  import opened Container

  /**
   * A tabbed container. The tab transition (the pre-animation block and the animation, duration and option
   * arrays a subclass provides) is the engine's preset, used by its simplified switch.
   */
  datatype Tabbed = Tabbed(engine: State, animateTransitions: bool)

  /** Which delegate helper ran, with the arguments it was given. */
  datatype Hook =
    | ApprovedHook(child: ChildId, animated: bool)
    | RefusedHook(child: ChildId, animated: bool)

  /**
   * The result of a selection: the new container, the hook that ran, the completion reports, the did-select
   * notification, and whether the tab transition's pre-animation block ran.
   */
  datatype Selection = Selection(
    tab: Tabbed, hook: Hook, reports: seq<Report>, didSelect: Option<ChildId>, ranPreSetup: bool)

  /**
   * The delegate's answer to should-select. `None` stands for no delegate, or a delegate that does not
   * implement the optional method; either approves.
   */
  predicate Approves(answer: Option<bool>) {
    answer != Some(false)
  }

  /** The tab container's invariant is the base container's. */
  predicate TabValid(tab: Tabbed) {
    Valid(tab.engine)
  }

  /**
   * Selecting a child. The delegate is asked first. A refusal runs the refused hook and changes nothing,
   * whether or not the child is managed. An approval runs the approved hook and switches to the child,
   * which raises for a child that is not managed; otherwise the delegate is told of the selection.
   */
  function Select(tab: Tabbed, child: ChildId, answer: Option<bool>): (r: Result<Selection, Error>)
    ensures !Approves(answer) ==> r == Ok(Selection(tab, RefusedHook(child, tab.animateTransitions), [], None, false))
    ensures Approves(answer) && child !in tab.engine.children ==> r == Err(NotAMember)
    ensures Approves(answer) && child in tab.engine.children && TabValid(tab) ==> r.Ok?
    ensures r.Ok? && Approves(answer) ==>
      && r.value.hook == ApprovedHook(child, tab.animateTransitions)
      && r.value.didSelect == Some(child)
      && r.value.tab.engine.current == Some(child)
      && r.value.tab.engine.children == tab.engine.children
      && r.value.tab.animateTransitions == tab.animateTransitions
      && (Transitioning(r.value.tab.engine) <==> tab.animateTransitions && tab.engine.preset.blocks > 0)
      && SwitchedTo(tab.engine, child, tab.animateTransitions, tab.engine.preset, None,
                    r.value.tab.engine, r.value.reports)
    ensures r.Ok? ==> (r.value.didSelect.Some? <==> r.value.hook.ApprovedHook?)
    // the pre-animation block runs only for an approved switch, under the reverse-interrupt rule
    ensures r.Ok? ==>
      (r.value.ranPreSetup <==> Approves(answer) && tab.engine.preset.preSetup && !SkipsPreSetup(tab.engine, child))
    ensures r.Ok? && TabValid(tab) ==> TabValid(r.value.tab)
  {
    if !Approves(answer) then Ok(Selection(tab, RefusedHook(child, tab.animateTransitions), [], None, false))
    else
      match SwitchToSimplified(tab.engine, child, tab.animateTransitions, None)
      case Err(e) => Err(e)
      case Ok(o) =>
        Ok(Selection(tab.(engine := o.state), ApprovedHook(child, tab.animateTransitions), o.reports, Some(child),
                     o.ranPreSetup))
  }

  /** Selecting by position: the child at `index` must exist, and then it goes through the same delegate gate. */
  function SelectAtIndex(tab: Tabbed, index: nat, answer: Option<bool>): (r: Result<Selection, Error>)
    ensures index >= |tab.engine.children| ==> r == Err(IndexOutOfRange)
    ensures index < |tab.engine.children| ==> r == Select(tab, tab.engine.children[index], answer)
    ensures r.Ok? ==> index < |tab.engine.children|
    ensures r.Ok? && Approves(answer) ==> r.value.tab.engine.current == Some(tab.engine.children[index])
    ensures r.Ok? && !Approves(answer) ==> r.value.tab == tab && r.value.didSelect == None
  {
    if index >= |tab.engine.children| then Err(IndexOutOfRange)
    else Select(tab, tab.engine.children[index], answer)
  }
}

=== FILE: wrappers.dfy ===
/** Optional values and results with an error, standing in for Objective-C's nil and raised exceptions. */
module Wrappers {

  /** A value that may be absent (nil in the modelled headers). */
  datatype Option<+T> = None | Some(value: T)

  /** The outcome of an operation that either succeeds or raises an error. */
  datatype Result<+T, +E> = Ok(value: T) | Err(error: E)
}
